=== FILE: README.md ===
# Sprite row: drag, click and flip — a Dafny model

This project models the logic inside `SpawnAndClickObjects.cs`, a Unity script
that spawns a row of clickable sprites and lets the user drag them sideways or
flip them with a click. Two parts are modelled, with the engine abstracted away.

- **The spawner** (`SpawnAndClickObjects.Start`) builds a row of `n` objects.
  Slot `i` sits at x = ((i + 0.5) − n/2) · spacing, with y = z = 0. The object
  is tinted `colors[i % 4]`.
- **The per-object handler** (`ObjectClickHandler`) is modelled as pure step
  functions over an explicit state: the two process-wide flags
  `isAnyObjectInteracting` and `isAnyObjectRotating`, the handler's own fields,
  its transform and its running coroutines. Press, drag and release are events.
  The two coroutines (`RotateSprite`, `SmoothReturn`) are records that each
  frame resumes once, with that frame's `deltaTime`.

Positions are `real` vectors. The orientation is the accumulated rotation about
z, in degrees. The engine's readings are inputs to the steps: the pointer in
world space, `Time.time`, `Time.deltaTime`, the viewport edges and the sprite's
rendered width (an `Option`, because the object may have no sprite renderer).

Modules (one per file): `Wrappers` (Option, Result), `Geometry` (vectors and
Mathf/Vector3 helpers), `Animation` (coroutines), `Gesture` (one handler),
`Scene` (all objects, the shared flags and the engine's event routing), `Layout`
(the spawner), `ReleaseGuard` (the unguarded release on a double-click, and the guarded release that fixes it), and
`Scenarios` (worked examples on the default row).

The model follows the code, including three behaviours a reader might not expect:

- `OnMouseUp` clears `isAnyObjectInteracting` unconditionally (line 237). The
  lock is therefore not held while a snap-back runs, and, while no flip runs,
  any object can be pressed during it. `SmoothReturn` clears the flag a second time when it ends.
- `OnMouseUp` does not check `isDragging`. The engine sends the release to the
  pressed collider even when the script rejected the press. Such a release is
  still classified and starts an animation (see Findings).
- Nothing rejects a count of zero or less. Zero gives an empty row. A negative
  count makes the array allocation throw, which `Layout.Start` reports as
  `Failure(NegativeCount)`.

## Model

| member | source | states |
|---|---|---|
| Layout.Start | SpawnAndClickObjects.cs:16-47 | fails exactly when the count is negative; otherwise both arrays have `n` entries, slot `i` is at (((i+0.5) − n/2)·spacing, 0, 0), and object `i` keeps index `i`, that position, and tint `Palette[i % 4]` when it has a renderer; two tinted objects share a colour exactly when their indices are a multiple of four apart |
| Layout.SlotsSpaced | SpawnAndClickObjects.cs:23 | consecutive slots are exactly `spacing` apart |
| Layout.SlotsIncrease | SpawnAndClickObjects.cs:23 | with positive spacing, slot x strictly increases with the index |
| Layout.RowCentred | SpawnAndClickObjects.cs:23 | slots `i` and `n−1−i` mirror each other about the origin |
| Layout.DefaultRow | SpawnAndClickObjects.cs:10-23 | the default four objects 1.5 apart sit at −2.25, −0.75, 0.75 and 2.25 |
| Geometry.Max | SpawnAndClickObjects.cs:106 | the result is at least both arguments and is one of them |
| Geometry.Min | SpawnAndClickObjects.cs:110 | the result is at most both arguments and is one of them |
| Geometry.Clamp | SpawnAndClickObjects.cs:124 | with ordered bounds the result lies between them; a value already inside is kept; a value below the lower bound becomes it, and any other value above the upper bound becomes the upper bound |
| Geometry.Lerp | SpawnAndClickObjects.cs:267 | the factor t is clamped to [0, 1]; on every axis the offset to the end is the start's offset scaled by 1 − t, so the result lies on the segment; factor ≤ 0 gives the start and ≥ 1 the end |
| Geometry.LerpShrinksDistance | SpawnAndClickObjects.cs:267 | one interpolation step scales the squared distance to the target by (1−t)², so it never grows |
| Geometry.DistanceSq | SpawnAndClickObjects.cs:202 | squared distance is non-negative, zero for equal points, and at least the squared offset along x and along y |
| Geometry.DistanceSqZero | SpawnAndClickObjects.cs:202 | squared distance is zero exactly when the two points are equal |
| Animation.BlendAngle | SpawnAndClickObjects.cs:250 | the blended orientation lies between start and end, its offset to the end is the start's offset scaled by 1 − t for the clamped factor t, and factor ≤ 0 gives the start, ≥ 1 the end |
| Animation.ResumeRotate | SpawnAndClickObjects.cs:240-257 | while elapsed < 0.5 the orientation stays between start and end and the flip yields with its clock advanced; afterwards it lands exactly on the end and clears `rotating`; the position is never touched |
| Animation.ResumeReturn | SpawnAndClickObjects.cs:259-274 | while 0 ≤ elapsed < 0.5 the offset to the slot on every axis is scaled by 1 − elapsed/0.5, so the new position lies on the segment from the current position to the slot, no farther from it; afterwards it lands exactly on the slot and clears `interacting`; the orientation is never touched |
| Animation.Resume | SpawnAndClickObjects.cs:248-270 | a coroutine yields again exactly when its clock is below 0.5, with its clock advanced by the frame time, and never raises a flag |
| Animation.ResumeAll | SpawnAndClickObjects.cs:248-274 | one frame of an object's coroutines keeps exactly those whose clock was still below 0.5 s, in order, each advanced by the frame time; it never raises a flag, clears `rotating` exactly when a flip ended, and a lone coroutine leaves the object where its own step puts it |
| Animation.Run | SpawnAndClickObjects.cs:240-274 | with frame times bounded below by a positive minimum, a coroutine terminates: a flip ends exactly on its end orientation with `rotating` cleared, and a snap-back ends exactly on its slot with `interacting` cleared |
| Gesture.Attached | SpawnAndClickObjects.cs:43-71 | a new handler is not dragging, has nothing running and rests on its slot with identity orientation |
| Gesture.Press | SpawnAndClickObjects.cs:73-88 | a press while either flag is raised changes nothing; otherwise it takes the lock, starts dragging, and records the pointer with z = 0, the position and the press time |
| Gesture.NeighbourClamp | SpawnAndClickObjects.cs:103-111 | never right of the right neighbour's slot, and a value right of it becomes it; never left of the left neighbour's slot when the neighbours are ordered, and then a value left of it becomes it; a value between them is kept |
| Gesture.ViewportClamp | SpawnAndClickObjects.cs:113-125 | skipped without a sprite width; with one, a value inside the viewport inset by half the width is kept, a value left of it becomes the left edge, any other value right of it the right edge, and the result lies in the inset range whenever that is non-empty |
| Gesture.NextIndex | SpawnAndClickObjects.cs:172-181 | always in [−1, n−1] and never the object itself; it is i−1 exactly when moving left, left of the slot, with i > 0, i+1 exactly when moving right, right of the slot, with i < n−1, and −1 exactly when neither applies |
| Gesture.Drag | SpawnAndClickObjects.cs:90-194 | a no-op unless dragging; otherwise x becomes the old x plus the pointer's horizontal movement, clamped between the neighbours and then into the inset viewport, while y, z, the orientation, the press time and the running coroutines stay; the pointer is recorded with z = 0; the direction becomes left or right when x moved that way and is kept on a tie; the side is left exactly when x is left of the slot; the next index follows the next-sprite rule |
| Gesture.DragNamesNeighbour | SpawnAndClickObjects.cs:133-181 | after a drag update a named left neighbour means the object is left of its slot, a named right neighbour that it is not, and moving away from the slot toward an existing neighbour names that neighbour |
| Gesture.DragCommitsWithinBounds | SpawnAndClickObjects.cs:103-128 | with the neighbours' slots in order and without a sprite width, the committed x stays between the neighbours' slots; with one, it lies in the inset viewport when that is non-empty, and in the intersection of both ranges when that is non-empty |
| Gesture.Classify | SpawnAndClickObjects.cs:202-229 | a click exactly when elapsed ≤ 0.2 and distance ≤ 0.1; a click flips by +180 exactly when the pointer is left of the object, otherwise by −180 |
| Gesture.ClickNearSlot | SpawnAndClickObjects.cs:202-205 | a release is only a click when the object is within 0.1 of its slot along x and along y |
| Gesture.ClassifyExamples | SpawnAndClickObjects.cs:62-63 | 0.19 s at distance 0.05 is a click; 0.3 s is a drag at any distance; distance 0.2 at 0.1 s is a drag |
| Gesture.Launch | SpawnAndClickObjects.cs:222-234 | starting a flip raises `rotating` and leaves a flip from the current orientation to it plus the angle; starting a snap-back leaves a return to the slot; the transform is unchanged by the first segment |
| Gesture.Release | SpawnAndClickObjects.cs:197-238 | every release stops dragging and leaves the lock free; no other handler field changes (the press time, the pointer, the direction, the side and the next index survive); it appends the flip or snap-back that the classification calls for, and `rotating` is raised afterwards exactly when it was before or the release was a click |
| Gesture.ReleaseFreesLock | SpawnAndClickObjects.cs:233-237 | with no flip running, after a drag release the snap-back is running and yet any object's next press is accepted |
| Gesture.ReleaseGuarded | SpawnAndClickObjects.cs:197-199 | the corrected release: one whose press was rejected changes nothing, any other behaves as the original |
| Gesture.Tick | SpawnAndClickObjects.cs:248-274 | a frame changes only the transform and the running coroutines of a handler, never raises a flag, and keeps exactly the coroutines whose clock was below 0.5 s, in order, each advanced by the frame time |
| Scene.Initial | SpawnAndClickObjects.cs:43-57 | one handler per slot, each at its slot, both flags clear, nothing pressed |
| Scene.TickAll | SpawnAndClickObjects.cs:248-274 | a frame over all objects keeps every handler's other fields, keeps for each object exactly its coroutines whose clock was below 0.5 s (advanced by the frame time), never raises `interacting`, never adds a flip, and clears `rotating` exactly when a flip ended |
| Scene.TickAllMoves | SpawnAndClickObjects.cs:248-274 | in a frame an idle object stays where it is, and an object with one coroutine ends where that coroutine's step puts it |
| Scene.Step | SpawnAndClickObjects.cs:73-238 | every event keeps the scene well formed and the slot list unchanged |
| Scene.StepIsLocal | SpawnAndClickObjects.cs:73-238 | a pointer event changes no object but the one it is delivered to (the pressed one, or for a press the one under the pointer); a delivered press records its object, a release clears the record, and a move keeps the record and both flags |
| Scene.PressWhileLockedIsIgnored | SpawnAndClickObjects.cs:73-79 | a press while either flag is raised only records the pressed collider |
| Scene.UpAlwaysFreesLock | SpawnAndClickObjects.cs:197-237 | any delivered release leaves the lock free and the released object not dragging |
| ReleaseGuard.DoubleClickStartsSecondFlip | SpawnAndClickObjects.cs:197-229 | as written, a rejected press's release still starts a flip, so two flips run on one object |
| ReleaseGuard.DoubleClickTilts | SpawnAndClickObjects.cs:240-257 | as written, the double-click clears `rotating` while the second flip still turns, and the object comes to rest at 198 degrees |
| ReleaseGuard.GuardedReplayKeepsFlipsWhole | SpawnAndClickObjects.cs:197-257 | with the guarded release, after any events at most one flip runs, `rotating` is raised exactly while it does, and every object with nothing running rests on a whole half turn |
| ReleaseGuard.GuardedStepKeepsInv | SpawnAndClickObjects.cs:73-274 | each guarded event preserves that invariant |
| Scenarios.LaidOutIsOrdered | SpawnAndClickObjects.cs:23-111 | a spawned row with non-negative spacing has every pair of neighbours in order, as the neighbour clamp needs |
| Scenarios.DragStopsAtNeighbour | SpawnAndClickObjects.cs:90-234 | on the default row, dragging object 0 to x = 2.0 stops it at −0.75 with next sprite 1; a slow release starts the snap-back to −2.25 and frees the lock |
| Scenarios.ClickLeftFlips | SpawnAndClickObjects.cs:211-257 | a quick click left of an object at its slot starts a +180 flip that raises `rotating`; driven by ten scene frames of 0.05 s, the flip then ends with the object at exactly 180 and both flags clear |
| Scenarios.FlipRunsOut | SpawnAndClickObjects.cs:240-257 | on the four-object row, a lone flip `k` frames short of its end finishes after `k + 1` frames of 0.05 s on exactly 180, lowering `rotating` |

## Findings

| source | as written | input that shows it | evidently intended | confidence | as-written member | corrected member |
|---|---|---|---|---|---|---|
| SpawnAndClickObjects.cs:197-205 | `OnMouseUp` classifies every release, even when `OnMouseDown` rejected the press, and it times the release from the last accepted press | one object at 20 frames per second, pointer left of it: press at 0 s, release at 0.05 s, one frame, press at 0.1 s (rejected: the flip is running), release at 0.15 s | a release whose press was rejected does nothing, so a flip always turns by exactly 180 from a half turn and `rotating` stays raised while any flip runs | high (derived by proof, not executed) | ReleaseGuard.DoubleClickTilts | ReleaseGuard.GuardedReplayKeepsFlipsWhole |

With the code as written, the second release starts a second flip from the
partly turned orientation 18°. The first flip ends and lowers `rotating` while
the second still runs. The object then comes to rest at 198°. These figures
come from the linear angle model; with the engine's quaternion blend the
mid-flip orientation at factor 0.1 is about 12.7° and the rest angle about
192.7°, still off a half turn. The corrected
release, `Gesture.ReleaseGuarded`, returns at once when the handler is not
dragging. Under it, `ReleaseGuard.GuardedReplayKeepsFlipsWhole` proves the intended
invariant for every event sequence. The rest of the model keeps the release as
written, because the model describes what the code does. The scene step takes
the release rule as a parameter (`Scene.ReleaseRule`), so every event lemma
that does not name a rule holds for both.

## Left out

- Engine calls are not modelled: `Instantiate`, `GetComponent`/`AddComponent`
  (including the box collider added when no collider exists),
  `Camera.main.ScreenToWorldPoint`, `Screen.width`, `Input.mousePosition`,
  `Time.time` and `Time.deltaTime`. Their results are inputs to the steps.
- The sprite's rendered width is read on every drag. The model takes it as an
  input of the drag event (`Viewport.spriteWidth`).
- Quaternions are not modelled. The orientation is an angle about z, and
  `Quaternion.Lerp` is a linear blend of that angle. Only the values at the
  start and end of a flip are meant to be exact.
- Floating-point rounding is not modelled. All numbers are `real`, so the
  thresholds 0.2 and 0.1 are exact decimals here.
- Coroutine scheduling is modelled only as "each running coroutine is resumed
  once per frame, in the order it was started, object by object". A frame is an
  event of its own, interleaved freely with pointer events.
- Animation.Run: termination is proved for frame times bounded below by a
  positive minimum. Frame times that merely stay positive could sum to less
  than 0.5 forever, and then the coroutine would never end, in the source too.
- `Vector3.Distance` is not modelled with a square root. Comparing it with 0.1
  is modelled as comparing its square with 0.01, which is the same test.
- Debug logging and its de-duplication fields (`positionMessage`,
  `lastPositionMessage`, `lastDirection`) are left out; they only affect the
  log. `direction`, the side of the slot and `nextSpriteIndex` are modelled.
- The unused `dotPrefab` and `linePrefab` fields and the cosmetic object names
  are left out.

=== FILE: animation.dfy ===
/** The two time-sliced animations of an object (RotateSprite and SmoothReturn),
    each as a suspended coroutine record resumed once per frame, plus the
    transform they write and the two process-wide flags they clear. */
module Animation {
  import opened Wrappers
  import opened Geometry

  /** Both animations last this long, in seconds. */
  const Duration: real := 0.5

  /** An object's transform: its position and its orientation, abstracted to the
      accumulated rotation about the z axis, in degrees (identity = 0). */
  datatype Transform = Transform(position: Vec3, rotation: real)

  /** The process-wide flags `isAnyObjectInteracting` and `isAnyObjectRotating`. */
  datatype Flags = Flags(interacting: bool, rotating: bool)

  const Cleared := Flags(false, false)

  /** A coroutine suspended just before it tests its loop condition again;
      `elapsed` is its local elapsedTime (0 before the first test).
      Rotate holds the captured start and end orientation; Return holds the
      captured slot position. */
  datatype Coroutine =
    | Rotate(from: real, to: real, elapsed: real)
    | Return(target: Vec3, elapsed: real)

  /** What one resumption leaves behind: the written transform, the flags, and
      the coroutine if it yielded again (None once it has run to its end). */
  datatype Resumed = Resumed(transform: Transform, flags: Flags, next: Option<Coroutine>)

  /** Interpolated orientation between two angles; the engine's spherical
      quaternion blend is abstracted to a linear blend of the angle. */
  function BlendAngle(from: real, to: real, t: real): (r: real)
    ensures Between(from, to, r)
    ensures r - to == (from - to) * (1.0 - Clamp01(t))
    ensures t <= 0.0 ==> r == from
    ensures t >= 1.0 ==> r == to
  {
    Mix(from, to, Clamp01(t))
  }

  /** One resumption of RotateSprite: while elapsed < Duration it writes the
      blended orientation and yields with elapsed advanced by this frame's time;
      afterwards it writes the end orientation exactly and clears `rotating`. */
  function ResumeRotate(from: real, to: real, elapsed: real, tf: Transform, flags: Flags, dt: real): (r: Resumed)
    ensures r.transform.position == tf.position
    ensures r.flags.interacting == flags.interacting
    ensures elapsed < Duration ==>
              && r.next == Some(Rotate(from, to, elapsed + dt))
              && r.flags == flags
              && Between(from, to, r.transform.rotation)
    ensures elapsed >= Duration ==>
              && r.next.None?
              && r.transform.rotation == to
              && !r.flags.rotating
  {
    if elapsed < Duration then
      Resumed(tf.(rotation := BlendAngle(from, to, elapsed / Duration)), flags, Some(Rotate(from, to, elapsed + dt)))
    else
      Resumed(tf.(rotation := to), flags.(rotating := false), None)
  }

  /** One resumption of SmoothReturn: while elapsed < Duration it interpolates
      from the CURRENT position toward the slot by elapsed/Duration (so the
      motion eases in rather than moving at constant speed) and yields: the
      remaining offset to the slot shrinks by that fraction on every axis, so
      the new position lies on the segment to the slot;
      afterwards it snaps exactly onto the slot and clears `interacting`. */
  function ResumeReturn(target: Vec3, elapsed: real, tf: Transform, flags: Flags, dt: real): (r: Resumed)
    ensures r.transform.rotation == tf.rotation
    ensures r.flags.rotating == flags.rotating
    ensures elapsed < Duration ==>
              && r.next == Some(Return(target, elapsed + dt))
              && r.flags == flags
              && Between(tf.position.x, target.x, r.transform.position.x)
              && Between(tf.position.y, target.y, r.transform.position.y)
              && Between(tf.position.z, target.z, r.transform.position.z)
              && DistanceSq(r.transform.position, target) <= DistanceSq(tf.position, target)
    ensures 0.0 <= elapsed < Duration ==>
              var p := r.transform.position;
              && p.x - target.x == (tf.position.x - target.x) * (1.0 - elapsed / Duration)
              && p.y - target.y == (tf.position.y - target.y) * (1.0 - elapsed / Duration)
              && p.z - target.z == (tf.position.z - target.z) * (1.0 - elapsed / Duration)
    ensures elapsed >= Duration ==>
              && r.next.None?
              && r.transform.position == target
              && !r.flags.interacting
  {
    if elapsed < Duration then
      ReturnStep(tf.position, target, elapsed);
      Resumed(tf.(position := Lerp(tf.position, target, elapsed / Duration)), flags, Some(Return(target, elapsed + dt)))
    else
      Resumed(tf.(position := target), flags.(interacting := false), None)
  }

  /** A clock inside the animation is a fraction of its duration. */
  lemma Fraction(elapsed: real)
    ensures 0.0 <= elapsed < Duration ==> 0.0 <= elapsed / Duration < 1.0
  {
  }

  /** The interpolating step of SmoothReturn, stated on positions alone. */
  lemma ReturnStep(from: Vec3, target: Vec3, elapsed: real)
    ensures var p := Lerp(from, target, elapsed / Duration);
      && Between(from.x, target.x, p.x)
      && Between(from.y, target.y, p.y)
      && Between(from.z, target.z, p.z)
      && DistanceSq(p, target) <= DistanceSq(from, target)
      && (0.0 <= elapsed < Duration ==>
            && p.x - target.x == (from.x - target.x) * (1.0 - elapsed / Duration)
            && p.y - target.y == (from.y - target.y) * (1.0 - elapsed / Duration)
            && p.z - target.z == (from.z - target.z) * (1.0 - elapsed / Duration))
  {
    LerpShrinksDistance(from, target, elapsed / Duration);
    Fraction(elapsed);
  }

  /** Resume whichever coroutine `c` is. Resumption never raises a flag. */
  function Resume(c: Coroutine, tf: Transform, flags: Flags, dt: real): (r: Resumed)
    ensures r.next.Some? <==> c.elapsed < Duration
    ensures r.next.Some? ==> r.next.value == c.(elapsed := c.elapsed + dt)
    ensures r.flags.interacting ==> flags.interacting
    ensures r.flags.rotating ==> flags.rotating
  {
    match c
    case Rotate(from, to, e) => ResumeRotate(from, to, e, tf, flags, dt)
    case Return(target, e) => ResumeReturn(target, e, tf, flags, dt)
  }

  /** Frames still needed by a coroutine that has `elapsed` on its clock when
      every frame lasts at least `minDt`: the interpolating frames plus the
      final one that snaps to the end value. */
  ghost function FramesLeft(elapsed: real, minDt: real): nat
    requires minDt > 0.0
  {
    if elapsed < Duration then ((Duration - elapsed) / minDt).Floor + 2 else 1
  }

  lemma FramesLeftDecrease(elapsed: real, dt: real, minDt: real)
    requires minDt > 0.0 && dt >= minDt
    requires elapsed < Duration
    ensures FramesLeft(elapsed + dt, minDt) < FramesLeft(elapsed, minDt)
  {
    var x := (Duration - elapsed) / minDt;
    assert x > 0.0;
    if elapsed + dt < Duration {
      var y := (Duration - (elapsed + dt)) / minDt;
      assert dt / minDt >= 1.0;
      assert y == x - dt / minDt;
      assert y.Floor as real <= y <= x - 1.0 < x.Floor as real;
    }
  }

  /** Where a resumption puts the object does not depend on the flags. */
  lemma ResumeIgnoresFlags(c: Coroutine, tf: Transform, f1: Flags, f2: Flags, dt: real)
    ensures Resume(c, tf, f1, dt).transform == Resume(c, tf, f2, dt).transform
  {
  }

  /** Drives one coroutine, resumed every frame with that frame's duration
      `frameTime(k)`, until it runs to its end. With frames bounded below by a
      positive time the loop terminates, and the animation ends EXACTLY on its
      target: a flip at its end orientation with `rotating` cleared, a
      snap-back on its slot with `interacting` cleared. */
  method Run(c: Coroutine, tf: Transform, flags: Flags, frameTime: nat -> real, minDt: real)
    returns (last: Transform, after: Flags, frames: nat)
    requires minDt > 0.0
    requires forall k: nat :: frameTime(k) >= minDt
    ensures c.Rotate? ==> last.rotation == c.to && !after.rotating
    ensures c.Rotate? ==> last.position == tf.position && after.interacting == flags.interacting
    ensures c.Return? ==> last.position == c.target && !after.interacting
    ensures c.Return? ==> last.rotation == tf.rotation && after.rotating == flags.rotating
    ensures frames >= 1
  {
    var cur := Some(c);
    last, after, frames := tf, flags, 0;
    while cur.Some?
      invariant cur.Some? ==> cur.value.Rotate? == c.Rotate?
      invariant cur.Some? && c.Rotate? ==> cur.value.to == c.to
      invariant cur.Some? && c.Return? ==> cur.value.target == c.target
      invariant c.Rotate? ==> last.position == tf.position && after.interacting == flags.interacting
      invariant c.Return? ==> last.rotation == tf.rotation && after.rotating == flags.rotating
      invariant cur.None? && c.Rotate? ==> last.rotation == c.to && !after.rotating
      invariant cur.None? && c.Return? ==> last.position == c.target && !after.interacting
      invariant cur.None? ==> frames >= 1
      decreases if cur.Some? then FramesLeft(cur.value.elapsed, minDt) else 0
    {
      var co := cur.value;
      var r := Resume(co, last, after, frameTime(frames));
      if co.elapsed < Duration {
        FramesLeftDecrease(co.elapsed, frameTime(frames), minDt);
      }
      last, after, cur := r.transform, r.flags, r.next;
      frames := frames + 1;
    }
  }

  /** Number of RotateSprite coroutines in a list. */
  function Rotates(cs: seq<Coroutine>): (n: nat)
    ensures n <= |cs|
  {
    if cs == [] then 0 else (if cs[0].Rotate? then 1 else 0) + Rotates(cs[1..])
  }

  /** The coroutine list after a resumption: kept if it yielded, dropped if it ended. */
  function Survivors(next: Option<Coroutine>): seq<Coroutine> {
    match next
    case Some(c) => [c]
    case None => []
  }

  /** Reference for which coroutines outlive a frame: exactly those whose clock
      was still below the duration when tested, in their original order, each
      with this frame's time added to its clock. */
  function Advanced(cs: seq<Coroutine>, dt: real): seq<Coroutine> {
    if cs == [] then []
    else (if cs[0].elapsed < Duration then [cs[0].(elapsed := cs[0].elapsed + dt)] else []) + Advanced(cs[1..], dt)
  }

  /** The result of resuming all of one object's coroutines in one frame. */
  datatype Batch = Batch(transform: Transform, flags: Flags, running: seq<Coroutine>)

  /** One frame of an object's coroutines: each is resumed once, in the order it
      was started, against the transform and flags the previous one left; the
      ones that ended are dropped. `rotating` ends up cleared exactly when some
      RotateSprite ended in this frame (or it was already clear). */
  function ResumeAll(cs: seq<Coroutine>, tf: Transform, flags: Flags, dt: real): (r: Batch)
    ensures |r.running| <= |cs|
    ensures Rotates(r.running) <= Rotates(cs)
    ensures r.flags.interacting ==> flags.interacting
    ensures r.flags.rotating == (flags.rotating && Rotates(r.running) == Rotates(cs))
    ensures Rotates(cs) == 0 ==> r.transform.rotation == tf.rotation
    ensures r.running == Advanced(cs, dt)
    ensures |cs| == 1 ==> r.transform == Resume(cs[0], tf, flags, dt).transform
    decreases |cs|
  {
    if cs == [] then Batch(tf, flags, [])
    else
      var first := Resume(cs[0], tf, flags, dt);
      var rest := ResumeAll(cs[1..], first.transform, first.flags, dt);
      var running := Survivors(first.next) + rest.running;
      RotatesAppend(Survivors(first.next), rest.running);
      Batch(rest.transform, rest.flags, running)
  }

  lemma {:induction false} RotatesAppend(a: seq<Coroutine>, b: seq<Coroutine>)
    ensures Rotates(a + b) == Rotates(a) + Rotates(b)
    decreases |a|
  {
    if a == [] {
      assert a + b == b;
    } else {
      assert (a + b)[1..] == a[1..] + b;
      RotatesAppend(a[1..], b);
    }
  }
}

=== FILE: geometry.dfy ===
/** World-space vectors and the engine's scalar helpers (Mathf.Max, Mathf.Min,
    Mathf.Clamp, Vector3.Lerp, Vector3.Distance) restated over `real`. */
module Geometry {

  datatype Vec3 = Vec3(x: real, y: real, z: real)

  /** The default value of a vector field (`new Vector3()`). */
  const Zero := Vec3(0.0, 0.0, 0.0)

  /** Mathf.Max: the larger argument. */
  function Max(a: real, b: real): (r: real)
    ensures r >= a && r >= b
    ensures r == a || r == b
  {
    if a > b then a else b
  }

  /** Mathf.Min: the smaller argument. */
  function Min(a: real, b: real): (r: real)
    ensures r <= a && r <= b
    ensures r == a || r == b
  {
    if a < b then a else b
  }

  /** Mathf.Clamp: the lower bound is tested first, so with `lo > hi` a value
      below `lo` becomes `lo` and any other value above `hi` becomes `hi`. */
  function Clamp(v: real, lo: real, hi: real): (r: real)
    ensures lo <= hi ==> lo <= r <= hi
    ensures lo <= v <= hi ==> r == v
    ensures v < lo ==> r == lo
    ensures lo <= v && hi < v ==> r == hi
    ensures r == v || r == lo || r == hi
  {
    if v < lo then lo else if v > hi then hi else v
  }

  /** Mathf.Clamp01, used by the engine's interpolation helpers. */
  function Clamp01(t: real): (r: real)
    ensures 0.0 <= r <= 1.0
    ensures 0.0 <= t <= 1.0 ==> r == t
    ensures t <= 0.0 ==> r == 0.0
    ensures t >= 1.0 ==> r == 1.0
  {
    Clamp(t, 0.0, 1.0)
  }

  /** `v` lies on the closed segment between `a` and `b`, whichever is larger. */
  predicate Between(a: real, b: real, v: real) {
    (a <= v <= b) || (b <= v <= a)
  }

  /** Linear interpolation of one coordinate with an already clamped factor. */
  function Mix(a: real, b: real, c: real): (r: real)
    requires 0.0 <= c <= 1.0
    ensures Between(a, b, r)
    ensures r - b == (a - b) * (1.0 - c)
  {
    ScaleNegate(b - a, c);
    if a <= b then
      ScaleWithin(b - a, c);
      a + Scale(b - a, c)
    else
      ScaleWithin(a - b, c);
      a + Scale(b - a, c)
  }

  /** The product `p * c`, named so that facts about it proved once for plain
      variables carry over to compound arguments. */
  function Scale(p: real, c: real): real {
    p * c
  }

  lemma ScaleWithin(p: real, c: real)
    requires p >= 0.0 && 0.0 <= c <= 1.0
    ensures 0.0 <= Scale(p, c) <= p
  {
    assert p * c <= p * 1.0;
  }

  lemma ScaleNegate(p: real, c: real)
    ensures Scale(-p, c) == -Scale(p, c)
  {
  }

  lemma Square(d: real)
    ensures d * d >= 0.0
  {
  }

  /** Squaring is strictly increasing on the non-negative reals. */
  lemma SquareGrows(k: real, d: real)
    requires 0.0 <= k < d
    ensures k * k < d * d
  {
    assert d * d - k * k == (d - k) * (d + k);
    Positive(d - k, d + k);
  }

  lemma Positive(p: real, q: real)
    requires p > 0.0 && q > 0.0
    ensures p * q > 0.0
  {
  }

  /** A square bounded by k * k bounds the value itself by k. */
  lemma WithinBySquare(d: real, k: real)
    requires k >= 0.0 && d * d <= k * k
    ensures -k <= d <= k
  {
    if d > k {
      SquareGrows(k, d);
      assert false;
    } else if d < -k {
      SquareGrows(k, -d);
      assert false;
    }
  }

  /** Vector3.Lerp: the factor is clamped to [0, 1] first. */
  function Lerp(a: Vec3, b: Vec3, t: real): (r: Vec3)
    ensures t <= 0.0 ==> r == a
    ensures t >= 1.0 ==> r == b
    ensures Between(a.x, b.x, r.x) && Between(a.y, b.y, r.y) && Between(a.z, b.z, r.z)
    ensures r.x - b.x == (a.x - b.x) * (1.0 - Clamp01(t))
    ensures r.y - b.y == (a.y - b.y) * (1.0 - Clamp01(t))
    ensures r.z - b.z == (a.z - b.z) * (1.0 - Clamp01(t))
    ensures 0.0 <= t <= 1.0 ==>
              && r.x - b.x == (a.x - b.x) * (1.0 - t)
              && r.y - b.y == (a.y - b.y) * (1.0 - t)
              && r.z - b.z == (a.z - b.z) * (1.0 - t)
  {
    var c := Clamp01(t);
    Vec3(Mix(a.x, b.x, c), Mix(a.y, b.y, c), Mix(a.z, b.z, c))
  }

  /** The square of Vector3.Distance; comparing it with the square of a
      non-negative threshold is the same test as comparing the distance. */
  function DistanceSq(a: Vec3, b: Vec3): (r: real)
    ensures r >= 0.0
    ensures a == b ==> r == 0.0
    ensures (a.x - b.x) * (a.x - b.x) <= r
    ensures (a.y - b.y) * (a.y - b.y) <= r
  {
    var dx, dy, dz := a.x - b.x, a.y - b.y, a.z - b.z;
    Square(dx);
    Square(dy);
    Square(dz);
    dx * dx + dy * dy + dz * dz
  }

  /** Squared distance is zero exactly for equal points. */
  lemma DistanceSqZero(a: Vec3, b: Vec3)
    ensures DistanceSq(a, b) == 0.0 <==> a == b
  {
    if DistanceSq(a, b) == 0.0 {
      var dx, dy, dz := a.x - b.x, a.y - b.y, a.z - b.z;
      Square(dx);
      Square(dy);
      Square(dz);
      WithinBySquare(dx, 0.0);
      WithinBySquare(dy, 0.0);
      WithinBySquare(dz, 0.0);
    }
  }

  /** Interpolating toward `b` scales the remaining squared distance by the
      square of the unconsumed fraction: Lerp never moves away from its target. */
  lemma LerpShrinksDistance(a: Vec3, b: Vec3, t: real)
    ensures DistanceSq(Lerp(a, b, t), b) == (1.0 - Clamp01(t)) * (1.0 - Clamp01(t)) * DistanceSq(a, b)
    ensures DistanceSq(Lerp(a, b, t), b) <= DistanceSq(a, b)
  {
    var k := 1.0 - Clamp01(t);
    ScaledDistance(a, b, Lerp(a, b, t), k);
    ShrinkFactor(DistanceSq(a, b), k);
  }

  lemma ShrinkFactor(d: real, k: real)
    requires d >= 0.0 && 0.0 <= k <= 1.0
    ensures Scale(Scale(k, k), d) <= d
  {
    ScaleWithin(k, k);
    ScaleWithin(d, Scale(k, k));
    assert Scale(d, Scale(k, k)) == Scale(Scale(k, k), d);
  }

  /** Scaling every axis offset to `b` by `k` scales the squared distance by k². */
  lemma ScaledDistance(a: Vec3, b: Vec3, r: Vec3, k: real)
    requires r.x - b.x == (a.x - b.x) * k
    requires r.y - b.y == (a.y - b.y) * k
    requires r.z - b.z == (a.z - b.z) * k
    ensures DistanceSq(r, b) == Scale(Scale(k, k), DistanceSq(a, b))
  {
    var ux, uy, uz := a.x - b.x, a.y - b.y, a.z - b.z;
    var vx, vy, vz := r.x - b.x, r.y - b.y, r.z - b.z;
    assert DistanceSq(r, b) == vx * vx + vy * vy + vz * vz;
    assert DistanceSq(a, b) == ux * ux + uy * uy + uz * uz;
    ScaledSquare(ux, k, vx);
    ScaledSquare(uy, k, vy);
    ScaledSquare(uz, k, vz);
    Distribute(k * k, ux * ux, uy * uy, uz * uz);
    assert Scale(Scale(k, k), DistanceSq(a, b)) == k * k * DistanceSq(a, b);
  }

  lemma Distribute(c: real, p: real, q: real, w: real)
    ensures c * (p + q + w) == c * p + c * q + c * w
  {
  }

  lemma ScaledSquare(u: real, k: real, v: real)
    requires v == u * k
    ensures v * v == (k * k) * (u * u)
  {
  }

}

=== FILE: gesture.dfy ===
/** The per-object pointer handler (ObjectClickHandler): press, drag and release
    as pure steps over the object's own fields, its transform and the two
    process-wide flags. The object's slot index and the shared slot list are
    passed in; the engine's pointer, clock and viewport readings are inputs. */
module Gesture {
  import opened Wrappers
  import opened Geometry
  import opened Animation

  /** The source's `left` / `right` constants, used both for the drag direction
      and for which side of its slot the object is on. */
  datatype Side = Left | Right

  /** The fields of one handler that outlive a single event. The debug-log
      de-duplication fields are left out. */
  datatype Handler = Handler(
    isDragging: bool,
    lastMouse: Vec3,
    lastPosition: Vec3,
    clickStart: real,
    direction: Side,
    positionSide: Side,
    nextIndex: int,
    transform: Transform,
    running: seq<Coroutine>)

  /** A freshly attached handler on an object placed at `slot` with identity
      orientation: field initialisers as declared, no coroutine running. */
  function Attached(slot: Vec3): (h: Handler)
    ensures !h.isDragging && h.running == []
    ensures h.transform == Transform(slot, 0.0)
  {
    Handler(false, Zero, Zero, 0.0, Left, Right, -1, Transform(slot, 0.0), [])
  }

  /** A handler together with the process-wide flags after one event. */
  datatype Stepped = Stepped(handler: Handler, flags: Flags)

  /** What the drag step reads from the engine each frame: the viewport's left
      and right edges in world x, and the sprite's rendered width when the
      object has a sprite renderer. */
  datatype Viewport = Viewport(left: real, right: real, spriteWidth: Option<real>)

  const ClickThresholdTime: real := 0.2
  const DragThresholdDistance: real := 0.1

  /** OnMouseDown. Ignored entirely while any object is interacting or rotating;
      otherwise it takes the interaction lock, starts dragging and records the
      pointer (z forced to 0), the current position and the press time. */
  function Press(h: Handler, flags: Flags, pointer: Vec3, now: real): (r: Stepped)
    ensures flags.interacting || flags.rotating ==> r == Stepped(h, flags)
    ensures !flags.interacting && !flags.rotating ==>
              && r.flags == Flags(true, false)
              && r.handler == h.(isDragging := true, lastMouse := pointer.(z := 0.0),
                                 lastPosition := h.transform.position, clickStart := now)
  {
    if flags.interacting || flags.rotating then Stepped(h, flags)
    else
      Stepped(h.(isDragging := true, lastMouse := pointer.(z := 0.0),
                 lastPosition := h.transform.position, clickStart := now),
              flags.(interacting := true))
  }

  /** The neighbour clamp: not below the left neighbour's slot when there is
      one, then not above the right neighbour's slot when there is one. */
  function NeighbourClamp(x: real, i: nat, slots: seq<Vec3>): (r: real)
    requires i < |slots|
    ensures i + 1 < |slots| ==> r <= slots[i + 1].x
    ensures 0 < i && (i + 1 == |slots| || slots[i - 1].x <= slots[i + 1].x) ==> r >= slots[i - 1].x
    ensures (i == 0 || slots[i - 1].x <= x) && (i + 1 == |slots| || x <= slots[i + 1].x) ==> r == x
    ensures 0 < i && x < slots[i - 1].x && (i + 1 == |slots| || slots[i - 1].x <= slots[i + 1].x) ==> r == slots[i - 1].x
    ensures i + 1 < |slots| && slots[i + 1].x < x ==> r == slots[i + 1].x
  {
    var afterLeft := if i > 0 then Max(x, slots[i - 1].x) else x;
    if i < |slots| - 1 then Min(afterLeft, slots[i + 1].x) else afterLeft
  }

  /** The viewport clamp, skipped without a sprite renderer: the visible
      range inset on both sides by half the sprite's width. It runs after the
      neighbour clamp, so it wins when the two disagree. */
  function ViewportClamp(x: real, view: Viewport): (r: real)
    ensures view.spriteWidth.None? ==> r == x
    ensures view.spriteWidth.Some? ==> r == x || r == InsetLeft(view) || r == InsetRight(view)
    ensures view.spriteWidth.Some? && InsetLeft(view) <= InsetRight(view) ==> InsetLeft(view) <= r <= InsetRight(view)
    ensures view.spriteWidth.Some? && InsetLeft(view) <= x <= InsetRight(view) ==> r == x
    ensures view.spriteWidth.Some? && x < InsetLeft(view) ==> r == InsetLeft(view)
    ensures view.spriteWidth.Some? && InsetLeft(view) <= x && InsetRight(view) < x ==> r == InsetRight(view)
  {
    match view.spriteWidth
    case None => x
    case Some(_) => Clamp(x, InsetLeft(view), InsetRight(view))
  }

  function HalfWidth(view: Viewport): real
    requires view.spriteWidth.Some?
  {
    view.spriteWidth.value / 2.0
  }

  function InsetLeft(view: Viewport): real
    requires view.spriteWidth.Some?
  {
    view.left + HalfWidth(view)
  }

  function InsetRight(view: Viewport): real
    requires view.spriteWidth.Some?
  {
    view.right - HalfWidth(view)
  }

  /** The next-sprite rule: the left neighbour while moving left on the left of
      the slot, the right neighbour while moving right on the right of it, and
      -1 otherwise. It is never the object itself and always a valid index or -1. */
  function NextIndex(direction: Side, side: Side, i: nat, n: nat): (r: int)
    requires i < n
    ensures -1 <= r < n && r != i
    ensures r == i - 1 && r >= 0 <==> direction == Left && side == Left && i > 0
    ensures r == i + 1 <==> direction == Right && side == Right && i + 1 < n
    ensures r == -1 <==> !(direction == Left && side == Left && i > 0) && !(direction == Right && side == Right && i + 1 < n)
  {
    if direction == Left && side == Left && i > 0 then i - 1
    else if direction == Right && side == Right && i < n - 1 then i + 1
    else -1
  }

  /** OnMouseDrag. A no-op unless dragging. Otherwise the pointer's horizontal
      movement since the last event is added to x only, x is clamped between
      the neighbours' slots and then into the inset viewport, and the drag
      direction, the side of the slot and the next-sprite index are updated. */
  function Drag(h: Handler, i: nat, slots: seq<Vec3>, pointer: Vec3, view: Viewport): (r: Handler)
    requires i < |slots|
    ensures !h.isDragging ==> r == h
    ensures r.transform.position.y == h.transform.position.y
    ensures r.transform.position.z == h.transform.position.z
    ensures r.transform.rotation == h.transform.rotation
    ensures r.isDragging == h.isDragging && r.clickStart == h.clickStart && r.running == h.running
    ensures h.isDragging ==>
              r == h.(transform := r.transform, lastMouse := pointer.(z := 0.0), lastPosition := r.transform.position,
                      direction := r.direction, positionSide := r.positionSide, nextIndex := r.nextIndex)
    ensures h.isDragging ==>
              r.transform.position.x == ViewportClamp(NeighbourClamp(h.transform.position.x + (pointer.x - h.lastMouse.x), i, slots), view)
    ensures h.isDragging && r.transform.position.x < h.lastPosition.x ==> r.direction == Left
    ensures h.isDragging && r.transform.position.x > h.lastPosition.x ==> r.direction == Right
    ensures h.isDragging && r.transform.position.x == h.lastPosition.x ==> r.direction == h.direction
    ensures h.isDragging ==> (r.positionSide == Left <==> r.transform.position.x < slots[i].x)
    ensures h.isDragging ==> r.nextIndex == NextIndex(r.direction, r.positionSide, i, |slots|)
  {
    if !h.isDragging then h
    else
      var mouse := pointer.(z := 0.0);
      var tentative := h.transform.position.x + (mouse.x - h.lastMouse.x);
      var x := ViewportClamp(NeighbourClamp(tentative, i, slots), view);
      var p := h.transform.position.(x := x);
      var direction :=
        if p.x < h.lastPosition.x then Left
        else if p.x > h.lastPosition.x then Right
        else h.direction;
      var side := if p.x < slots[i].x then Left else Right;
      h.(transform := h.transform.(position := p), lastMouse := mouse,
         direction := direction, positionSide := side,
         nextIndex := NextIndex(direction, side, i, |slots|), lastPosition := p)
  }

  /** How a release is classified. */
  datatype Outcome = Flip(angle: real) | SnapBack

  /** A click when the press lasted at most 0.2 s and the object is within 0.1
      of its slot (compared squared); a click on the left half flips by +180,
      otherwise (including dead centre) by -180. Anything else is a drag. */
  function Classify(elapsed: real, distanceSq: real, pointerX: real, objectX: real): (g: Outcome)
    ensures g.Flip? <==> elapsed <= ClickThresholdTime && distanceSq <= DragThresholdDistance * DragThresholdDistance
    ensures g.Flip? ==> (g.angle == 180.0 <==> pointerX < objectX)
    ensures g.Flip? ==> (g.angle == -180.0 <==> pointerX >= objectX)
  {
    if elapsed <= ClickThresholdTime && distanceSq <= DragThresholdDistance * DragThresholdDistance then
      Flip(if pointerX < objectX then 180.0 else -180.0)
    else SnapBack
  }

  /** Starts the coroutine the gesture calls for; StartCoroutine runs its body
      up to the first yield at once, i.e. one resumption from elapsed 0 with
      the current frame's time. A flip raises `rotating` on entry. */
  function Launch(g: Outcome, slot: Vec3, tf: Transform, flags: Flags, dt: real): (r: Resumed)
    ensures r.transform == tf
    ensures r.flags.interacting == flags.interacting
    ensures g.Flip? ==> r.flags.rotating && r.next == Some(Rotate(tf.rotation, tf.rotation + g.angle, dt))
    ensures g.SnapBack? ==> r.flags.rotating == flags.rotating && r.next == Some(Return(slot, dt))
  {
    match g
    case Flip(angle) => Resume(Rotate(tf.rotation, tf.rotation + angle, 0.0), tf, flags.(rotating := true), dt)
    case SnapBack => Resume(Return(slot, 0.0), tf, flags, dt)
  }

  /** OnMouseUp, as written: it does NOT check that this object's press was
      accepted. It stops dragging, classifies the gesture from the time since
      the last accepted press and the distance from the slot, starts a flip or
      a snap-back, and then clears the interaction lock unconditionally, so the
      lock is not held while the snap-back runs. */
  function Release(h: Handler, flags: Flags, i: nat, slots: seq<Vec3>, pointer: Vec3, now: real, dt: real): (r: Stepped)
    requires i < |slots|
    ensures !r.handler.isDragging && !r.flags.interacting
    ensures r.handler == h.(isDragging := false, running := r.handler.running)
    ensures |r.handler.running| == |h.running| + 1 && r.handler.running[..|h.running|] == h.running
    ensures
      var g := Classify(now - h.clickStart, DistanceSq(slots[i], h.transform.position), pointer.x, h.transform.position.x);
      && r.flags.rotating == (flags.rotating || g.Flip?)
      && (g.Flip? ==> r.handler.running[|h.running|] == Rotate(h.transform.rotation, h.transform.rotation + g.angle, dt))
      && (g.SnapBack? ==> r.handler.running[|h.running|] == Return(slots[i], dt))
  {
    var p := h.transform.position;
    var g := Classify(now - h.clickStart, DistanceSq(slots[i], p), pointer.x, p.x);
    var started := Launch(g, slots[i], h.transform, flags, dt);
    var running := h.running + [started.next.value];
    assert running[..|h.running|] == h.running;
    Stepped(h.(isDragging := false, running := running), started.flags.(interacting := false))
  }

  /** OnMouseUp as evidently intended: a release whose press was rejected
      (the handler is not dragging) changes nothing. */
  function ReleaseGuarded(h: Handler, flags: Flags, i: nat, slots: seq<Vec3>, pointer: Vec3, now: real, dt: real): (r: Stepped)
    requires i < |slots|
    ensures !h.isDragging ==> r == Stepped(h, flags)
    ensures h.isDragging ==> r == Release(h, flags, i, slots, pointer, now, dt)
  {
    if h.isDragging then Release(h, flags, i, slots, pointer, now, dt) else Stepped(h, flags)
  }

  /** One frame of this object's running coroutines. */
  function Tick(h: Handler, flags: Flags, dt: real): (r: Stepped)
    ensures r.handler == h.(transform := r.handler.transform, running := r.handler.running)
    ensures r.flags.interacting ==> flags.interacting
    ensures r.flags.rotating ==> flags.rotating
    ensures |r.handler.running| <= |h.running|
    ensures r.handler.running == Advanced(h.running, dt)
  {
    var b := ResumeAll(h.running, h.transform, flags, dt);
    Stepped(h.(transform := b.transform, running := b.running), b.flags)
  }

  /** Neighbour slots are in order around slot `i` (as every layout with
      non-negative spacing makes them). */
  predicate OrderedAround(slots: seq<Vec3>, i: nat)
    requires i < |slots|
  {
    0 < i < |slots| - 1 ==> slots[i - 1].x <= slots[i + 1].x
  }

  /** Where a drag update commits x. Without a sprite width it stays between
      the neighbours' slots; with one, the viewport clamp wins, so x lies in the
      inset viewport whenever that range is non-empty, and in the intersection
      of the two ranges whenever that intersection is non-empty. */
  lemma DragCommitsWithinBounds(h: Handler, i: nat, slots: seq<Vec3>, pointer: Vec3, view: Viewport)
    requires i < |slots| && h.isDragging && OrderedAround(slots, i)
    ensures var x := Drag(h, i, slots, pointer, view).transform.position.x;
      && (view.spriteWidth.None? ==> (i > 0 ==> slots[i - 1].x <= x) && (i + 1 < |slots| ==> x <= slots[i + 1].x))
      && (view.spriteWidth.Some? && InsetLeft(view) <= InsetRight(view) ==> InsetLeft(view) <= x <= InsetRight(view))
      && (view.spriteWidth.Some? ==>
            var lo := if i > 0 then Max(slots[i - 1].x, InsetLeft(view)) else InsetLeft(view);
            var hi := if i + 1 < |slots| then Min(slots[i + 1].x, InsetRight(view)) else InsetRight(view);
            lo <= hi ==> lo <= x <= hi)
  {
  }

  /** A click is only recognised near the slot: within the drag threshold of
      it along x and along y. */
  lemma ClickNearSlot(elapsed: real, slot: Vec3, position: Vec3, pointerX: real)
    requires Classify(elapsed, DistanceSq(slot, position), pointerX, position.x).Flip?
    ensures slot.x - DragThresholdDistance <= position.x <= slot.x + DragThresholdDistance
    ensures slot.y - DragThresholdDistance <= position.y <= slot.y + DragThresholdDistance
  {
    var d, k := DistanceSq(slot, position), DragThresholdDistance;
    var dx, dy := slot.x - position.x, slot.y - position.y;
    assert dx * dx <= d <= k * k;
    assert dy * dy <= d <= k * k;
    WithinBySquare(dx, k);
    WithinBySquare(dy, k);
  }

  /** The next-sprite index after a drag update names the neighbour the object
      is heading for: a named left neighbour means the object is left of its
      slot, a named right neighbour that it is not, and moving away from the
      slot toward an existing neighbour always names that neighbour. */
  lemma DragNamesNeighbour(h: Handler, i: nat, slots: seq<Vec3>, pointer: Vec3, view: Viewport)
    requires i < |slots| && h.isDragging
    ensures var r := Drag(h, i, slots, pointer, view);
      && (0 <= r.nextIndex && r.nextIndex == i - 1 ==> r.transform.position.x < slots[i].x)
      && (r.nextIndex == i + 1 ==> slots[i].x <= r.transform.position.x)
      && (0 < i && r.transform.position.x < h.lastPosition.x && r.transform.position.x < slots[i].x ==> r.nextIndex == i - 1)
      && (i + 1 < |slots| && h.lastPosition.x < r.transform.position.x && slots[i].x <= r.transform.position.x ==> r.nextIndex == i + 1)
  {
  }

  /** The worked examples of the classification rule: 0.19 s at distance 0.05
      is a click, 0.3 s is a drag whatever the distance, distance 0.2 at 0.1 s
      is a drag; a click left of the object flips by +180. */
  lemma ClassifyExamples(d: real, px: real, ox: real)
    ensures Classify(0.19, 0.05 * 0.05, px, ox).Flip?
    ensures Classify(0.3, d, px, ox) == SnapBack
    ensures Classify(0.1, 0.2 * 0.2, px, ox) == SnapBack
    ensures px < ox ==> Classify(0.0, 0.0, px, ox) == Flip(180.0)
    ensures px >= ox ==> Classify(0.0, 0.0, px, ox) == Flip(-180.0)
  {
  }

  /** Every release leaves the object not dragging and the interaction lock
      free, whether it was a click or a drag, and whether or not this object's
      press had been accepted. A drag release therefore leaves the lock free
      while its snap-back still runs, so any object may be pressed then. */
  lemma ReleaseFreesLock(h: Handler, flags: Flags, i: nat, slots: seq<Vec3>, pointer: Vec3, now: real, dt: real, q: Handler, qPointer: Vec3, qNow: real)
    requires i < |slots|
    requires !flags.rotating
    requires Classify(now - h.clickStart, DistanceSq(slots[i], h.transform.position), pointer.x, h.transform.position.x) == SnapBack
    ensures var r := Release(h, flags, i, slots, pointer, now, dt);
      && r.handler.running[|r.handler.running| - 1] == Return(slots[i], dt)
      && Press(q, r.flags, qPointer, qNow).handler.isDragging
  {
  }
}

=== FILE: layout.dfy ===
/** The spawner (SpawnAndClickObjects.Start): a row of `n` objects centred on
    the origin, `spacing` apart, tinted from a four-colour palette. */
module Layout {
  import opened Wrappers
  import opened Geometry

  datatype Color = Red | Green | Blue | Yellow

  const Palette: seq<Color> := [Red, Green, Blue, Yellow]

  /** The x of slot `i` of `n`, computed exactly as the spawner does. */
  function SlotX(n: int, i: int, spacing: real): real {
    ((i as real + 0.5) - n as real / 2.0) * spacing
  }

  /** One spawned object: its slot index, its position, and its tint (none
      when the prefab has no sprite renderer to colour). Its display name is
      cosmetic and left out. */
  datatype Spawned = Spawned(index: nat, position: Vec3, tint: Option<Color>)

  /** The shared list of slot positions and the spawned objects. */
  datatype Row = Row(positions: seq<Vec3>, objects: seq<Spawned>)

  /** Allocating the arrays with a negative length throws; nothing guards it. */
  datatype SpawnError = NegativeCount

  /** Start: allocates both arrays for `n` objects (failing when `n` is
      negative; zero gives an empty row) and fills slot `i` with an object at
      x = ((i + 0.5) - n/2) * spacing, y = z = 0, tinted Palette[i % 4] when it
      has a sprite renderer. `hasRenderer(i)` stands for the prefab lookup. */
  method Start(n: int, spacing: real, hasRenderer: nat -> bool) returns (r: Result<Row, SpawnError>)
    ensures r.Failure? <==> n < 0
    ensures r.Success? ==> |r.value.positions| == n && |r.value.objects| == n
    ensures r.Success? ==> forall i :: 0 <= i < n ==> r.value.positions[i] == Vec3(SlotX(n, i, spacing), 0.0, 0.0)
    ensures r.Success? ==> forall i :: 0 <= i < n ==>
              r.value.objects[i] == Spawned(i, r.value.positions[i], if hasRenderer(i) then Some(Palette[i % 4]) else None)
    ensures r.Success? ==> forall i, j :: 0 <= i < j < n && hasRenderer(i) && hasRenderer(j) ==>
              (r.value.objects[i].tint == r.value.objects[j].tint <==> (j - i) % 4 == 0)
  {
    if n < 0 {
      return Failure(NegativeCount);
    }
    var positions: seq<Vec3> := [];
    var objects: seq<Spawned> := [];
    var i: nat := 0;
    while i < n
      invariant i <= n
      invariant |positions| == i && |objects| == i
      invariant forall k :: 0 <= k < i ==> positions[k] == Vec3(SlotX(n, k, spacing), 0.0, 0.0)
      invariant forall k :: 0 <= k < i ==>
                  objects[k] == Spawned(k, positions[k], if hasRenderer(k) then Some(Palette[k % 4]) else None)
    {
      var position := Vec3(((i as real + 0.5) - n as real / 2.0) * spacing, 0.0, 0.0);
      assert position.x == SlotX(n, i, spacing);
      var tint := if hasRenderer(i) then Some(Palette[i % |Palette|]) else None;
      positions := positions + [position];
      objects := objects + [Spawned(i, position, tint)];
      i := i + 1;
    }
    forall i, j | 0 <= i < j < n && hasRenderer(i) && hasRenderer(j)
      ensures objects[i].tint == objects[j].tint <==> (j - i) % 4 == 0
    {
      SameTint(i, j);
    }
    return Success(Row(positions, objects));
  }

  /** Consecutive slots are exactly `spacing` apart. */
  lemma SlotsSpaced(n: int, i: int, spacing: real)
    ensures SlotX(n, i + 1, spacing) - SlotX(n, i, spacing) == spacing
  {
  }

  /** With positive spacing, slots strictly increase with their index. */
  lemma SlotsIncrease(n: int, i: int, j: int, spacing: real)
    requires spacing > 0.0 && i < j
    ensures SlotX(n, i, spacing) < SlotX(n, j, spacing)
  {
    var d := (j - i) as real;
    assert SlotX(n, j, spacing) - SlotX(n, i, spacing) == d * spacing;
    assert d * spacing > 0.0;
  }

  /** The row is centred on the origin: slot i and slot n-1-i mirror each other. */
  lemma RowCentred(n: int, i: int, spacing: real)
    ensures SlotX(n, i, spacing) + SlotX(n, n - 1 - i, spacing) == 0.0
  {
  }

  /** The default configuration, four objects 1.5 apart, puts the slots at
      -2.25, -0.75, 0.75 and 2.25. */
  lemma DefaultRow()
    ensures SlotX(4, 0, 1.5) == -2.25 && SlotX(4, 1, 1.5) == -0.75
    ensures SlotX(4, 2, 1.5) == 0.75 && SlotX(4, 3, 1.5) == 2.25
  {
  }

  /** Two objects get the same palette colour exactly when their indices are a
      multiple of four apart. */
  lemma SameTint(i: nat, j: nat)
    requires i <= j
    ensures Palette[i % 4] == Palette[j % 4] <==> (j - i) % 4 == 0
  {
    var s, t := i % 4, j % 4;
    var qi, qj := i / 4, j / 4;
    assert i == 4 * qi + s;
    assert j == 4 * qj + t;
    if s <= t {
      RemainderOf(j - i, qj - qi, t - s);
    } else {
      RemainderOf(j - i, qj - qi - 1, t - s + 4);
    }
  }

  /** Euclidean division by four has a unique remainder. */
  lemma RemainderOf(x: int, q: int, m: int)
    requires x == 4 * q + m && 0 <= m < 4
    ensures x % 4 == m
  {
  }


}

=== FILE: release_guard.dfy ===
/** The release that does not check whether its press was accepted, shown on a
    fast double-click, and the guarded release that keeps every flip whole. */
module ReleaseGuard {
  import opened Wrappers
  import opened Geometry
  import opened Animation
  import opened Gesture
  import opened Scene

  /** Where both clicks land: left of the object's centre at the origin. */
  const Pointer := Vec3(-1.0, 0.0, 0.0)

  /** The first click on a lone object at 20 frames per second, left of its
      centre: press, then release 0.05 s later. */
  function FirstClick(): World {
    var w0 := Initial([Zero]);
    var w1 := Step(AsWritten, w0, Down(0, Pointer, 0.0));
    Step(AsWritten, w1, Up(Pointer, 0.05, 0.05))
  }

  /** The double-click: after the first click, one frame, a second press
      (rejected, a flip is running) and its release 0.15 s after the first
      press. */
  function DoubleClick(): World {
    var w2 := FirstClick();
    var w3 := Step(AsWritten, w2, Frame(0.05));
    var w4 := Step(AsWritten, w3, Down(0, Pointer, 0.1));
    Step(AsWritten, w4, Up(Pointer, 0.15, 0.05))
  }

  /** The first click is accepted, classified as a click and starts a +180 flip. */
  lemma FirstClickFlips()
    ensures var w := FirstClick();
      && WellFormed(w) && |w.objects| == 1 && w.pressed.None? && w.flags == Flags(false, true)
      && w.objects[0].running == [Rotate(0.0, 180.0, 0.05)]
      && w.objects[0].transform == Transform(Zero, 0.0) && w.objects[0].clickStart == 0.0
  {
    var w0 := Initial([Zero]);
    assert w0.objects == [Attached(Zero)];
    var w1 := Step(AsWritten, w0, Down(0, Pointer, 0.0));
    assert w1.flags == Flags(true, false) && w1.objects[0].isDragging && w1.objects[0].clickStart == 0.0;
    assert w1.objects[0].transform == Transform(Zero, 0.0);
    assert Classify(0.05, 0.0, -1.0, 0.0) == Flip(180.0);
  }

  /** As written, the rejected press's release still classifies as a click
      and starts a second flip from the partly turned orientation 18, so two
      flips run on the one object. */
  lemma DoubleClickStartsSecondFlip()
    ensures var w := DoubleClick();
      && WellFormed(w) && |w.objects| == 1 && w.flags == Flags(false, true)
      && w.objects[0].running == [Rotate(0.0, 180.0, 0.1), Rotate(18.0, 198.0, 0.05)]
      && RotCount(w.objects) == 2
  {
    FirstClickFlips();
    SecondClickFlips(FirstClick());
  }

  /** From the state the first click leaves, the frame, the rejected press and
      its release. */
  lemma SecondClickFlips(w2: World)
    requires WellFormed(w2) && |w2.objects| == 1 && w2.pressed.None? && w2.flags == Flags(false, true)
    requires w2.objects[0].running == [Rotate(0.0, 180.0, 0.05)]
    requires w2.objects[0].transform == Transform(Zero, 0.0) && w2.objects[0].clickStart == 0.0
    requires w2.slots == [Zero]
    ensures
      var w3 := Step(AsWritten, w2, Frame(0.05));
      var w4 := Step(AsWritten, w3, Down(0, Pointer, 0.1));
      var w5 := Step(AsWritten, w4, Up(Pointer, 0.15, 0.05));
      && WellFormed(w5) && |w5.objects| == 1 && w5.flags == Flags(false, true)
      && w5.objects[0].running == [Rotate(0.0, 180.0, 0.1), Rotate(18.0, 198.0, 0.05)]
      && RotCount(w5.objects) == 2
  {
    var h2 := w2.objects[0];
    assert ResumeAll(h2.running, h2.transform, w2.flags, 0.05)
        == Batch(Transform(Zero, 18.0), w2.flags, [Rotate(0.0, 180.0, 0.1)]);
    var w3 := Step(AsWritten, w2, Frame(0.05));
    assert w2.objects[1..] == [];
    assert w3.objects == [h2.(transform := Transform(Zero, 18.0), running := [Rotate(0.0, 180.0, 0.1)])];
    assert w3.flags == Flags(false, true);
    var w4 := Step(AsWritten, w3, Down(0, Pointer, 0.1));
    assert w4.objects == w3.objects && w4.pressed == Some(0);
    var w5 := Step(AsWritten, w4, Up(Pointer, 0.15, 0.05));
    assert Classify(0.15, 0.0, -1.0, 0.0) == Flip(180.0);
    assert w5.objects[0].running == [Rotate(0.0, 180.0, 0.1), Rotate(18.0, 198.0, 0.05)];
    assert Rotates(w5.objects[0].running) == 2;
    assert w5.objects[1..] == [];
  }

  /** As written, the double-click ends badly: after nine more frames the
      first flip has ended and cleared `rotating` while the second still
      turns, and one frame later the object comes to rest at 198 degrees,
      not on a half turn. */
  lemma DoubleClickTilts()
    ensures var w := Frames(AsWritten, DoubleClick(), 0.05, 9);
      && w.objects[0].running == [Rotate(18.0, 198.0, 0.5)]
      && !w.flags.rotating
      && var last := Step(AsWritten, w, Frame(0.05));
      && last.objects[0].running == []
      && last.objects[0].transform.rotation == 198.0
      && last.flags == Cleared
  {
    DoubleClickStartsSecondFlip();
    TwoFlipsRunOut(DoubleClick());
  }

  /** The frames after the double-click, from any lone object in that state. */
  lemma TwoFlipsRunOut(start: World)
    requires WellFormed(start) && |start.objects| == 1 && start.flags == Flags(false, true)
    requires start.objects[0].running == [Rotate(0.0, 180.0, 0.1), Rotate(18.0, 198.0, 0.05)]
    ensures var w := Frames(AsWritten, start, 0.05, 9);
      && w.objects[0].running == [Rotate(18.0, 198.0, 0.5)]
      && !w.flags.rotating
      && var last := Step(AsWritten, w, Frame(0.05));
      && last.objects[0].running == []
      && last.objects[0].transform.rotation == 198.0
      && last.flags == Cleared
  {
    assert TwoFlips(start, 0.1);
    FirstFlipOutlived(start, 0.1, 8);
    var w := Frames(AsWritten, start, 0.05, 9);
    LastFlipEnds(w, 0.05);
  }

  /** From two flips with `k` turning frames left on the first, `k + 1`
      frames end the first flip, clear `rotating`, and leave the second one
      frame short of its end. */
  lemma {:induction false} FirstFlipOutlived(w: World, e1: real, k: nat)
    requires TwoFlips(w, e1)
    requires e1 == 0.5 - 0.05 * k as real
    ensures SecondFlipLeft(Frames(AsWritten, w, 0.05, k + 1))
    decreases k
  {
    var w1 := Step(AsWritten, w, Frame(0.05));
    FramesUnfold(AsWritten, w, 0.05, k);
    if k == 0 {
      FirstFlipEnds(w, 0.05);
      assert SecondFlipLeft(w1);
    } else {
      TwoFlipsAdvance(w, e1);
      FirstFlipOutlived(w1, e1 + 0.05, k - 1);
    }
  }

  /** A lone object whose first flip has ended and whose second flip is one
      frame short of its end, with both flags clear. */
  predicate SecondFlipLeft(w: World) {
    && |w.objects| == 1 && w.flags == Cleared
    && w.objects[0].running == [Rotate(18.0, 198.0, 0.5)]
  }

  /** A lone object running the two flips of the double-click, the first with
      `e1` on its clock and the second one frame behind. */
  predicate TwoFlips(w: World, e1: real) {
    && WellFormed(w) && |w.objects| == 1 && w.flags == Flags(false, true)
    && w.objects[0].running == [Rotate(0.0, 180.0, e1), Rotate(18.0, 198.0, e1 - 0.05)]
  }

  lemma TwoFlipsAdvance(w: World, e1: real)
    requires TwoFlips(w, e1) && e1 < Duration
    ensures TwoFlips(Step(AsWritten, w, Frame(0.05)), e1 + 0.05)
  {
    BothFlipsAdvance(w, e1, e1 - 0.05, 0.05);
    assert e1 - 0.05 + 0.05 == (e1 + 0.05) - 0.05;
  }

  /** A frame on a lone object running two flips that are both still turning. */
  lemma BothFlipsAdvance(w: World, e1: real, e2: real, dt: real)
    requires WellFormed(w) && |w.objects| == 1
    requires w.objects[0].running == [Rotate(0.0, 180.0, e1), Rotate(18.0, 198.0, e2)]
    requires e1 < Duration && e2 < Duration
    ensures var r := Step(AsWritten, w, Frame(dt));
      && |r.objects| == 1 && r.flags == w.flags
      && r.objects[0].running == [Rotate(0.0, 180.0, e1 + dt), Rotate(18.0, 198.0, e2 + dt)]
  {
    var h := w.objects[0];
    var first := ResumeRotate(0.0, 180.0, e1, h.transform, w.flags, dt);
    var second := ResumeRotate(18.0, 198.0, e2, first.transform, first.flags, dt);
    assert h.running[1..] == [Rotate(18.0, 198.0, e2)];
    assert ResumeAll([Rotate(18.0, 198.0, e2)], first.transform, first.flags, dt)
        == Batch(second.transform, second.flags, [Rotate(18.0, 198.0, e2 + dt)]);
    assert ResumeAll(h.running, h.transform, w.flags, dt)
        == Batch(second.transform, w.flags, [Rotate(0.0, 180.0, e1 + dt), Rotate(18.0, 198.0, e2 + dt)]);
    assert w.objects[1..] == [];
    assert TickAll(w.objects, w.flags, dt).flags == w.flags;
  }

  /** The frame in which the first flip ends: it lowers `rotating` although the
      second flip is still turning. */
  lemma FirstFlipEnds(w: World, dt: real)
    requires WellFormed(w) && |w.objects| == 1 && w.flags == Flags(false, true)
    requires w.objects[0].running == [Rotate(0.0, 180.0, 0.5), Rotate(18.0, 198.0, 0.45)]
    ensures var r := Step(AsWritten, w, Frame(dt));
      && |r.objects| == 1 && r.flags == Cleared
      && r.objects[0].running == [Rotate(18.0, 198.0, 0.45 + dt)]
  {
    var h := w.objects[0];
    var first := ResumeRotate(0.0, 180.0, 0.5, h.transform, w.flags, dt);
    var second := ResumeRotate(18.0, 198.0, 0.45, first.transform, first.flags, dt);
    assert h.running[1..] == [Rotate(18.0, 198.0, 0.45)];
    assert ResumeAll([Rotate(18.0, 198.0, 0.45)], first.transform, first.flags, dt)
        == Batch(second.transform, second.flags, [Rotate(18.0, 198.0, 0.45 + dt)]);
    assert w.objects[1..] == [];
  }

  /** The frame in which the second flip ends, on its own end orientation. */
  lemma LastFlipEnds(w: World, dt: real)
    requires WellFormed(w) && |w.objects| == 1 && !w.flags.interacting
    requires w.objects[0].running == [Rotate(18.0, 198.0, 0.5)]
    ensures var r := Step(AsWritten, w, Frame(dt));
      && |r.objects| == 1 && r.flags == Cleared
      && r.objects[0].running == [] && r.objects[0].transform.rotation == 198.0
  {
  }

  /** An orientation that is a whole number of half turns about z. */
  predicate HalfTurn(a: real) {
    (a / 180.0).Floor as real == a / 180.0
  }

  lemma HalfTurnStep(a: real, d: real)
    requires HalfTurn(a) && (d == 180.0 || d == -180.0)
    ensures HalfTurn(a + d)
  {
    var q := a / 180.0;
    var s := d / 180.0;
    assert (a + d) / 180.0 == q + s;
    assert (q + s).Floor == q.Floor + (s as int);
  }

  /** Every flip in the list starts and ends on a half turn. */
  predicate FlipsWhole(cs: seq<Coroutine>) {
    forall j :: 0 <= j < |cs| && cs[j].Rotate? ==> HalfTurn(cs[j].from) && HalfTurn(cs[j].to)
  }

  /** An object whose flips start and end on half turns and which, when no
      flip is running on it, rests on a half turn. */
  predicate Settled(h: Handler) {
    FlipsWhole(h.running) && (Rotates(h.running) == 0 ==> HalfTurn(h.transform.rotation))
  }

  /** What the guarded release keeps true of the scene: only the pressed
      object can be dragging, and not while a flip runs; exactly one flip runs
      while `rotating` is raised and none otherwise; every object is settled. */
  ghost predicate Inv(w: World) {
    && WellFormed(w)
    && (forall k :: 0 <= k < |w.objects| && w.objects[k].isDragging ==> w.pressed == Some(k) && !w.flags.rotating)
    && RotCount(w.objects) == (if w.flags.rotating then 1 else 0)
    && (forall k :: 0 <= k < |w.objects| ==> Settled(w.objects[k]))
  }

  /** A sequence of events applied in order. */
  function Replay(rule: ReleaseRule, w: World, events: seq<Event>): (r: World)
    requires WellFormed(w)
    ensures WellFormed(r) && r.slots == w.slots
    decreases |events|
  {
    if events == [] then w else Replay(rule, Step(rule, w, events[0]), events[1..])
  }

  /** With the guarded release, every scene reachable from the spawned row
      keeps the invariant: at most one flip runs at a time, `rotating` is
      raised exactly while it does, and every object at rest is on a half turn. */
  lemma {:induction false} GuardedReplayKeepsFlipsWhole(slots: seq<Vec3>, events: seq<Event>)
    ensures Inv(Replay(Guarded, Initial(slots), events))
    ensures var w := Replay(Guarded, Initial(slots), events);
      forall k :: 0 <= k < |w.objects| && w.objects[k].running == [] ==> HalfTurn(w.objects[k].transform.rotation)
  {
    InitialInv(slots);
    ReplayKeepsInv(Initial(slots), events);
  }

  lemma {:induction false} ReplayKeepsInv(w: World, events: seq<Event>)
    requires Inv(w)
    ensures Inv(Replay(Guarded, w, events))
    decreases |events|
  {
    if events != [] {
      GuardedStepKeepsInv(w, events[0]);
      ReplayKeepsInv(Step(Guarded, w, events[0]), events[1..]);
    }
  }

  lemma InitialInv(slots: seq<Vec3>)
    ensures Inv(Initial(slots))
  {
    var w := Initial(slots);
    NoneRunning(w.objects);
    assert HalfTurn(0.0) by {
      assert (0.0 / 180.0).Floor == 0;
    }
  }

  lemma {:induction false} NoneRunning(hs: seq<Handler>)
    requires forall k :: 0 <= k < |hs| ==> hs[k].running == []
    ensures RotCount(hs) == 0
    decreases |hs|
  {
    if hs != [] {
      NoneRunning(hs[1..]);
    }
  }

  lemma {:induction false} RotCountUpdate(hs: seq<Handler>, e: nat, h: Handler)
    requires e < |hs|
    ensures RotCount(hs[e := h]) == RotCount(hs) - Rotates(hs[e].running) + Rotates(h.running)
    ensures Rotates(hs[e].running) <= RotCount(hs)
    decreases |hs|
  {
    if e == 0 {
      assert hs[e := h][1..] == hs[1..];
    } else {
      assert hs[e := h][1..] == hs[1..][e - 1 := h];
      RotCountUpdate(hs[1..], e - 1, h);
    }
  }

  /** One guarded event keeps the invariant. */
  lemma GuardedStepKeepsInv(w: World, ev: Event)
    requires Inv(w)
    ensures Inv(Step(Guarded, w, ev))
  {
    var r := Step(Guarded, w, ev);
    match ev
    case Down(e, pointer, now) =>
      if w.pressed.None? && e < |w.objects| {
        var s := Press(w.objects[e], w.flags, pointer, now);
        RotCountUpdate(w.objects, e, s.handler);
        assert forall k :: 0 <= k < |w.objects| ==> !w.objects[k].isDragging;
      }
    case Move(pointer, view) =>
      if w.pressed.Some? {
        var e := w.pressed.value;
        RotCountUpdate(w.objects, e, Drag(w.objects[e], e, w.slots, pointer, view));
      }
    case Up(pointer, now, dt) =>
      if w.pressed.Some? {
        var e := w.pressed.value;
        var h := w.objects[e];
        var s := ReleaseGuarded(h, w.flags, e, w.slots, pointer, now, dt);
        RotCountUpdate(w.objects, e, s.handler);
        if h.isDragging {
          ReleaseKeepsSettled(h, w.flags, e, w.slots, pointer, now, dt);
        }
      }
    case Frame(dt) =>
      RotCountBound(w.objects);
      TickAllSettled(w.objects, w.flags, dt);
      var t := TickAll(w.objects, w.flags, dt);
      assert forall k :: 0 <= k < |t.objects| ==> Settled(t.objects[k]);
      assert r.objects == t.objects;
  }

  /** A release of the dragging object, with no flip running anywhere, leaves
      it settled with at most the one new flip. */
  lemma ReleaseKeepsSettled(h: Handler, flags: Flags, i: nat, slots: seq<Vec3>, pointer: Vec3, now: real, dt: real)
    requires i < |slots| && Settled(h) && Rotates(h.running) == 0 && !flags.rotating
    ensures var r := Release(h, flags, i, slots, pointer, now, dt);
      && Settled(r.handler)
      && Rotates(r.handler.running) == (if r.flags.rotating then 1 else 0)
  {
    var r := Release(h, flags, i, slots, pointer, now, dt);
    var c := r.handler.running[|h.running|];
    assert r.handler.running == h.running + [c];
    RotatesAppend(h.running, [c]);
    assert [c][1..] == [];
    var g := Classify(now - h.clickStart, DistanceSq(slots[i], h.transform.position), pointer.x, h.transform.position.x);
    if g.Flip? {
      HalfTurnStep(h.transform.rotation, g.angle);
    }
  }

  lemma {:induction false} RotCountBound(hs: seq<Handler>)
    ensures forall k :: 0 <= k < |hs| ==> Rotates(hs[k].running) <= RotCount(hs)
    decreases |hs|
  {
    if hs != [] {
      RotCountBound(hs[1..]);
      assert forall k :: 1 <= k < |hs| ==> hs[k] == hs[1..][k - 1];
    }
  }

  /** A frame keeps every object settled while at most one flip runs. */
  lemma {:induction false} TickAllSettled(hs: seq<Handler>, flags: Flags, dt: real)
    requires RotCount(hs) <= 1
    requires forall k :: 0 <= k < |hs| ==> Settled(hs[k])
    ensures forall k :: 0 <= k < |hs| ==> Settled(TickAll(hs, flags, dt).objects[k])
    decreases |hs|
  {
    if hs != [] {
      var first := Tick(hs[0], flags, dt);
      var rest := TickAll(hs[1..], first.flags, dt);
      var r := TickAll(hs, flags, dt);
      assert r.objects == [first.handler] + rest.objects;
      assert Settled(hs[0]) && Rotates(hs[0].running) + RotCount(hs[1..]) <= 1;
      ResumeAllSettled(hs[0].running, hs[0].transform, flags, dt);
      assert Settled(first.handler);
      forall k | 0 <= k < |hs[1..]|
        ensures Settled(hs[1..][k])
      {
        assert hs[1..][k] == hs[k + 1];
      }
      TickAllSettled(hs[1..], first.flags, dt);
      forall k | 1 <= k < |hs|
        ensures Settled(r.objects[k])
      {
        assert r.objects[k] == rest.objects[k - 1];
      }
    }
  }

  /** Resuming one object's coroutines keeps it settled when at most one of
      them is a flip: a flip that ends leaves the object on its end half turn,
      and snap-backs never touch the orientation. */
  lemma {:induction false} ResumeAllSettled(cs: seq<Coroutine>, tf: Transform, flags: Flags, dt: real)
    requires FlipsWhole(cs) && Rotates(cs) <= 1
    requires Rotates(cs) == 0 ==> HalfTurn(tf.rotation)
    ensures var r := ResumeAll(cs, tf, flags, dt);
      FlipsWhole(r.running) && (Rotates(r.running) == 0 ==> HalfTurn(r.transform.rotation))
    decreases |cs|
  {
    if cs != [] {
      var first := Resume(cs[0], tf, flags, dt);
      FlipsWholeTail(cs);
      FirstSettles(cs[0], Rotates(cs[1..]), tf, flags, dt);
      var rest := ResumeAll(cs[1..], first.transform, first.flags, dt);
      if cs[0].Rotate? && first.next.Some? {
        // the one flip is still turning; the snap-backs after it hold no flip
        NoFlipsWhole(rest.running);
      } else {
        ResumeAllSettled(cs[1..], first.transform, first.flags, dt);
      }
      FlipsWholeAppend(Survivors(first.next), rest.running);
      RotatesAppend(Survivors(first.next), rest.running);
    }
  }

  lemma NoFlipsWhole(cs: seq<Coroutine>)
    requires Rotates(cs) == 0
    ensures FlipsWhole(cs)
  {
  }

  lemma FlipsWholeTail(cs: seq<Coroutine>)
    requires cs != [] && FlipsWhole(cs)
    ensures FlipsWhole(cs[1..])
    ensures cs[0].Rotate? ==> HalfTurn(cs[0].from) && HalfTurn(cs[0].to)
  {
  }

  /** The first coroutine of a frame: what it leaves is whole, and if it was the
      object's one flip and has ended, the object is back on a half turn. */
  lemma FirstSettles(c: Coroutine, restRotates: nat, tf: Transform, flags: Flags, dt: real)
    requires c.Rotate? ==> HalfTurn(c.from) && HalfTurn(c.to) && restRotates == 0
    requires (if c.Rotate? then 1 else 0) + restRotates == 0 ==> HalfTurn(tf.rotation)
    ensures var first := Resume(c, tf, flags, dt);
      && FlipsWhole(Survivors(first.next))
      && Rotates(Survivors(first.next)) == (if first.next.Some? && c.Rotate? then 1 else 0)
      && (Rotates(Survivors(first.next)) + restRotates == 0 ==> HalfTurn(first.transform.rotation))
  {
  }

  lemma FlipsWholeAppend(a: seq<Coroutine>, b: seq<Coroutine>)
    requires FlipsWhole(a) && FlipsWhole(b)
    ensures FlipsWhole(a + b)
  {
  }
}

=== FILE: scenarios.dfy ===
/** The spawned row seen by the gesture handlers, and the worked end-to-end
    scenarios of the default four-object row. */
module Scenarios {
  import opened Wrappers
  import opened Geometry
  import opened Animation
  import opened Gesture
  import opened Scene
  import opened Layout

  /** Slot positions laid out the way the spawner lays them out. */
  predicate LaidOut(positions: seq<Vec3>, spacing: real) {
    forall i :: 0 <= i < |positions| ==> positions[i] == Vec3(SlotX(|positions|, i, spacing), 0.0, 0.0)
  }

  /** A row spawned with non-negative spacing has every pair of neighbours in
      order, so the neighbour clamp of every object keeps it between them. */
  lemma LaidOutIsOrdered(positions: seq<Vec3>, spacing: real, i: nat)
    requires LaidOut(positions, spacing) && spacing >= 0.0 && i < |positions|
    ensures OrderedAround(positions, i)
  {
  }

  const DefaultSlots := [Vec3(-2.25, 0.0, 0.0), Vec3(-0.75, 0.0, 0.0), Vec3(0.75, 0.0, 0.0), Vec3(2.25, 0.0, 0.0)]

  /** Four objects 1.5 apart: pressing object 0 and dragging the pointer to
      x = 2.0 stops it on its right neighbour's slot at -0.75 (moving right, on
      the right of its slot, so the next sprite is 1); releasing a second later
      is a drag, which starts the snap-back to -2.25 and frees the lock. */
  lemma DragStopsAtNeighbour()
    ensures
      var w1 := Step(AsWritten, Initial(DefaultSlots), Down(0, Vec3(-2.25, 0.0, 5.0), 0.0));
      var w2 := Step(AsWritten, w1, Move(Vec3(2.0, 0.3, 0.0), Viewport(-10.0, 10.0, None)));
      var w3 := Step(AsWritten, w2, Up(Vec3(2.0, 0.3, 0.0), 1.0, 0.02));
      && w1.flags == Flags(true, false) && w1.objects[0].lastMouse == Vec3(-2.25, 0.0, 0.0)
      && w2.objects[0].transform.position == Vec3(-0.75, 0.0, 0.0)
      && w2.objects[0].direction == Right && w2.objects[0].nextIndex == 1
      && w3.objects[0].running == [Return(Vec3(-2.25, 0.0, 0.0), 0.02)]
      && w3.flags == Cleared
  {
  }

  /** A click at the slot with the pointer left of the object starts a +180
      flip that raises `rotating`; at 20 frames per second, ten frames later the
      flip has ended with the object at exactly 180 and both flags clear. */
  lemma ClickLeftFlips()
    ensures
      var w1 := Step(AsWritten, Initial(DefaultSlots), Down(1, Vec3(-1.0, 0.0, 0.0), 0.0));
      var w2 := Step(AsWritten, w1, Up(Vec3(-1.0, 0.0, 0.0), 0.1, 0.05));
      var w3 := Frames(AsWritten, w2, 0.05, 10);
      && w2.objects[1].running == [Rotate(0.0, 180.0, 0.05)]
      && w2.flags == Flags(false, true)
      && w3.objects[1].running == []
      && w3.objects[1].transform.rotation == 180.0
      && w3.flags == Cleared
  {
    var w1 := Step(AsWritten, Initial(DefaultSlots), Down(1, Vec3(-1.0, 0.0, 0.0), 0.0));
    var w2 := Step(AsWritten, w1, Up(Vec3(-1.0, 0.0, 0.0), 0.1, 0.05));
    assert OneFlip(w2, 0.05);
    FlipRunsOut(w2, 0.05, 9);
  }

  /** On the default row with only object 1 flipping, `k` frames short of the
      end of its clock, `k + 1` frames of 0.05 s end the flip on exactly 180
      and lower `rotating`. */
  lemma {:induction false} FlipRunsOut(w: World, e: real, k: nat)
    requires OneFlip(w, e)
    requires e == 0.5 - 0.05 * k as real
    ensures var r := Frames(AsWritten, w, 0.05, k + 1);
      && r.objects[1].running == []
      && r.objects[1].transform.rotation == 180.0
      && r.flags == Cleared
    decreases k
  {
    var w1 := Step(AsWritten, w, Frame(0.05));
    FlipFrame(w, e);
    assert Frames(AsWritten, w, 0.05, k + 1) == Frames(AsWritten, w1, 0.05, k);
    if k > 0 {
      FlipRunsOut(w1, e + 0.05, k - 1);
    }
  }

  /** Four objects, both flags as a running flip leaves them, and only object
      1 busy, with one +180 flip from rest whose clock reads `e`. */
  predicate OneFlip(w: World, e: real) {
    && WellFormed(w) && |w.objects| == 4 && w.flags == Flags(false, true)
    && w.objects[0].running == [] && w.objects[2].running == [] && w.objects[3].running == []
    && w.objects[1].running == [Rotate(0.0, 180.0, e)]
  }

  /** One frame of that state: the flip advances, or at the end of its clock it
      lands on 180 and lowers `rotating`. */
  lemma FlipFrame(w: World, e: real)
    requires OneFlip(w, e)
    ensures var w1 := Step(AsWritten, w, Frame(0.05));
      && (e < Duration ==> OneFlip(w1, e + 0.05))
      && (e >= Duration ==>
            && w1.objects[1].running == []
            && w1.objects[1].transform.rotation == 180.0
            && w1.flags == Cleared)
  {
    var w1 := Step(AsWritten, w, Frame(0.05));
    TickAllMoves(w.objects, w.flags, 0.05);
    RotCountOfRow(w.objects);
    RotCountOfRow(w1.objects);
  }

  /** The scene's flip count over four objects. */
  lemma RotCountOfRow(hs: seq<Handler>)
    requires |hs| == 4
    ensures RotCount(hs) == Rotates(hs[0].running) + Rotates(hs[1].running) + Rotates(hs[2].running) + Rotates(hs[3].running)
  {
    var t1 := hs[1..];
    var t2 := t1[1..];
    var t3 := t2[1..];
    assert RotCount(hs) == Rotates(hs[0].running) + RotCount(t1);
    assert RotCount(t1) == Rotates(t1[0].running) + RotCount(t2);
    assert RotCount(t2) == Rotates(t2[0].running) + RotCount(t3);
    assert t3[1..] == [];
    assert RotCount(t3) == Rotates(t3[0].running);
  }
}

=== FILE: scene.dfy ===
/** All spawned objects together: the shared slot list, every object's handler,
    the two process-wide flags, and which object's collider the pointer went
    down on (the engine routes drag and release events to that object whether
    or not its script accepted the press). Events arrive one at a time from the
    host's frame loop. */
module Scene {
  import opened Wrappers
  import opened Geometry
  import opened Animation
  import opened Gesture

  datatype World = World(flags: Flags, slots: seq<Vec3>, objects: seq<Handler>, pressed: Option<nat>)

  /** Input from the host. Down names the object under the pointer; Move and Up
      go to the pressed object; Frame resumes every running coroutine. `now` is
      the frame's clock, `dt` its duration. */
  datatype Event =
    | Down(target: nat, pointer: Vec3, now: real)
    | Move(pointer: Vec3, view: Viewport)
    | Up(pointer: Vec3, now: real, dt: real)
    | Frame(dt: real)

  /** Which OnMouseUp the objects run. */
  datatype ReleaseRule = AsWritten | Guarded

  predicate WellFormed(w: World) {
    && |w.objects| == |w.slots|
    && (w.pressed.Some? ==> w.pressed.value < |w.objects|)
  }

  /** The scene right after spawning: one handler per slot, flags clear. */
  function Initial(slots: seq<Vec3>): (w: World)
    ensures WellFormed(w) && w.slots == slots && w.flags == Cleared && w.pressed.None?
    ensures forall k :: 0 <= k < |slots| ==> w.objects[k].transform.position == slots[k]
  {
    World(Cleared, slots, seq(|slots|, k requires 0 <= k < |slots| => Attached(slots[k])), None)
  }

  /** The release handler under the chosen rule. */
  function ReleaseBy(rule: ReleaseRule, h: Handler, flags: Flags, i: nat, slots: seq<Vec3>, pointer: Vec3, now: real, dt: real): Stepped
    requires i < |slots|
  {
    match rule
    case AsWritten => Release(h, flags, i, slots, pointer, now, dt)
    case Guarded => ReleaseGuarded(h, flags, i, slots, pointer, now, dt)
  }

  /** Result of one frame across all objects. */
  datatype Ticked = Ticked(objects: seq<Handler>, flags: Flags)

  /** Rotation coroutines running anywhere in the scene. */
  function RotCount(hs: seq<Handler>): nat {
    if hs == [] then 0 else Rotates(hs[0].running) + RotCount(hs[1..])
  }

  /** One frame: every object's coroutines are resumed, object by object; the
      flags pass from one to the next and can only be cleared. */
  function TickAll(hs: seq<Handler>, flags: Flags, dt: real): (r: Ticked)
    ensures |r.objects| == |hs|
    ensures forall k :: 0 <= k < |hs| ==>
              r.objects[k] == hs[k].(transform := r.objects[k].transform, running := r.objects[k].running)
    ensures r.flags.interacting ==> flags.interacting
    ensures RotCount(r.objects) <= RotCount(hs)
    ensures forall k :: 0 <= k < |hs| ==> r.objects[k].running == Advanced(hs[k].running, dt)
    ensures r.flags.rotating == (flags.rotating && RotCount(r.objects) == RotCount(hs))
    decreases |hs|
  {
    if hs == [] then Ticked([], flags)
    else
      var first := Tick(hs[0], flags, dt);
      var rest := TickAll(hs[1..], first.flags, dt);
      var objects := [first.handler] + rest.objects;
      assert objects[1..] == rest.objects;
      Ticked(objects, rest.flags)
  }

  /** Where a frame leaves each object: an idle object stays put, and an
      object with one coroutine ends where that coroutine's own resumption
      puts it, whatever the other objects did to the flags. */
  lemma {:induction false} TickAllMoves(hs: seq<Handler>, flags: Flags, dt: real)
    ensures var r := TickAll(hs, flags, dt);
      && (forall k :: 0 <= k < |hs| && hs[k].running == [] ==> r.objects[k].transform == hs[k].transform)
      && (forall k :: 0 <= k < |hs| && |hs[k].running| == 1 ==>
            r.objects[k].transform == Resume(hs[k].running[0], hs[k].transform, flags, dt).transform)
    decreases |hs|
  {
    if hs != [] {
      var first := Tick(hs[0], flags, dt);
      TickAllMoves(hs[1..], first.flags, dt);
      var r := TickAll(hs, flags, dt);
      var rest := TickAll(hs[1..], first.flags, dt);
      assert r.objects == [first.handler] + rest.objects;
      forall k | 1 <= k < |hs|
        ensures r.objects[k] == rest.objects[k - 1] && hs[k] == hs[1..][k - 1]
      {
      }
      forall k | 1 <= k < |hs| && |hs[k].running| == 1
        ensures r.objects[k].transform == Resume(hs[k].running[0], hs[k].transform, flags, dt).transform
      {
        ResumeIgnoresFlags(hs[k].running[0], hs[k].transform, first.flags, flags, dt);
      }
    }
  }

  /** One event. Events the engine never delivers (a second Down while the
      button is held, Move or Up with nothing pressed, Down on no object) leave
      the scene unchanged. */
  function Step(rule: ReleaseRule, w: World, ev: Event): (r: World)
    requires WellFormed(w)
    ensures WellFormed(r) && r.slots == w.slots
  {
    match ev
    case Down(e, pointer, now) =>
      if w.pressed.Some? || e >= |w.objects| then w
      else
        var s := Press(w.objects[e], w.flags, pointer, now);
        w.(flags := s.flags, objects := w.objects[e := s.handler], pressed := Some(e))
    case Move(pointer, view) =>
      if w.pressed.None? then w
      else
        var e := w.pressed.value;
        w.(objects := w.objects[e := Drag(w.objects[e], e, w.slots, pointer, view)])
    case Up(pointer, now, dt) =>
      if w.pressed.None? then w
      else
        var e := w.pressed.value;
        var s := ReleaseBy(rule, w.objects[e], w.flags, e, w.slots, pointer, now, dt);
        w.(flags := s.flags, objects := w.objects[e := s.handler], pressed := None)
    case Frame(dt) =>
      var t := TickAll(w.objects, w.flags, dt);
      w.(objects := t.objects, flags := t.flags)
  }

  /** A pointer event touches only the object it is delivered to: the one
      pressed, or for a press the one under the pointer. A delivered press
      records its object, a release clears the record, and a move keeps both
      the record and the flags. */
  lemma StepIsLocal(rule: ReleaseRule, w: World, ev: Event)
    requires WellFormed(w) && !ev.Frame?
    ensures var r := Step(rule, w, ev);
      && (forall k :: 0 <= k < |w.objects| && Some(k) != (if ev.Down? then Some(ev.target) else w.pressed) ==> r.objects[k] == w.objects[k])
      && (ev.Down? ==> r.pressed == (if w.pressed.None? && ev.target < |w.objects| then Some(ev.target) else w.pressed))
      && (ev.Move? ==> r.pressed == w.pressed && r.flags == w.flags)
      && (ev.Up? ==> r.pressed == None)
  {
  }

  /** `n` frames of the same duration. */
  function Frames(rule: ReleaseRule, w: World, dt: real, n: nat): (r: World)
    requires WellFormed(w)
    ensures WellFormed(r) && r.slots == w.slots
    decreases n
  {
    if n == 0 then w else Frames(rule, Step(rule, w, Frame(dt)), dt, n - 1)
  }

  lemma FramesUnfold(rule: ReleaseRule, w: World, dt: real, n: nat)
    requires WellFormed(w)
    ensures Frames(rule, w, dt, n + 1) == Frames(rule, Step(rule, w, Frame(dt)), dt, n)
    ensures Frames(rule, w, dt, 1) == Step(rule, w, Frame(dt))
  {
  }

  /** A press while either flag is raised only records the pressed collider:
      no handler, transform or flag changes. */
  lemma PressWhileLockedIsIgnored(rule: ReleaseRule, w: World, e: nat, pointer: Vec3, now: real)
    requires WellFormed(w) && w.pressed.None? && e < |w.objects|
    requires w.flags.interacting || w.flags.rotating
    ensures Step(rule, w, Down(e, pointer, now)) == w.(pressed := Some(e))
  {
  }

  /** Under the code as written, every delivered release ends with the
      interaction lock free, whatever the gesture was. */
  lemma UpAlwaysFreesLock(w: World, pointer: Vec3, now: real, dt: real)
    requires WellFormed(w) && w.pressed.Some?
    ensures var r := Step(AsWritten, w, Up(pointer, now, dt));
      !r.flags.interacting && r.pressed.None? && !r.objects[w.pressed.value].isDragging
  {
  }
}

=== FILE: wrappers.dfy ===
/** Plain wrappers used across the model: an optional value (a missing
    component or reading) and a success-or-error result (an operation that can
    throw). */
module Wrappers {

  datatype Option<+T> = None | Some(value: T)

  datatype Result<+R, +E> = Success(value: R) | Failure(error: E)
}
